=== FILE: README.md ===
# dnscrypt-cake rate controller, in Dafny

This project models the bandwidth/RTT controller that the dnscrypt-cake fork
attaches to dnscrypt-proxy's query-log plugin. The controller exists in two
variants, and both are modelled:

- **The integer variant** (`dnscrypt/dnscrypt-proxy/plugin_query_log.go`). For each transaction logged in the
  `tsv` format, `PluginQueryLog.Eval` takes its duration as the new RTT.
  Other formats leave the controller alone. Both RTTs are converted to
  microseconds with Go's truncating division. If the RTT grew, each rate loses
  10% in integer arithmetic and is clamped to `[minUL, maxUL]`. Both rates
  are then pushed to the CAKE shaper with `tc`. The RTT is committed only
  after both pushes succeed. The background `cake()` loop runs the same
  backoff on its own parameter copies of the RTTs. After each pair of
  successful pushes it adds 1 Mbit per direction.
- **The real-valued variant** (`cake-support/dnscrypt-proxy/plugin_query_log.go`). For each transaction logged in
  the `tsv` format, `Eval` hands the request duration over as the RTT sample
  and raises a bufferbloat flag when the duration grew.
  Each iteration of the `cake()` loop does the following:
  - evicts the oldest sample once the window holds `cakeDataLimit` entries;
  - doubles each rate up to its 90% ceiling;
  - appends the sample;
  - averages the slices;
  - replaces each rate by a "median" that depends only on the last sample and
    the parity of the slice length;
  - clamps the cubic recovery value to `[1 Mbit, 10 Mbit]` while the flag is
    set;
  - normalises the RTT to `[10 ms, 1 s]` and converts it to µs;
  - decides the `split-gso` mode;
  - pushes both directions.

Modules:

- `GoArith`: Go's truncating integer division and float-to-integer conversion.
- `Shaper`: the `tc` port. Each invocation is an abstract `Applied | Failed`
  input.
- `QueryLog`: the filter prelude both `Eval`s share. It covers the client
  protocol, the case-insensitive ignored-qtype list, the server-name rewrite,
  the request duration, and the log-writer check.
- `LegacyCake`: the integer variant.
- `SampleWindow`: the parallel sample slices, their mean, and the last-sample
  "median".
- `CakeControl`: the per-tick arithmetic of the real-valued variant.
- `CakeLoop`: the real-valued variant's shared state, one loop iteration
  (`Tick`), and its `Eval`.

Every state is an immutable record, and every step is a pure function. The
`tc` results and the cubic formula's value are parameters. Each step returns
the commands it issued and whether the loop carries on.

Behaviour of the code that the model keeps as it is:

- The real-valued variant has no separate cut step on a regression. Its
  `Eval` only raises a flag. The next tick replaces each rate by the cubic
  curve `C·(T−K)³ + rate`, with `K` the cube root of `rate·(1−B)/C`,
  `B = 0.7` and `C = 0.4`, and clamps the result to `[1 Mbit, 10 Mbit]`. `T`
  counts whole seconds since the regression, so on the first tick the curve
  gives `B·rate`, a 30% cut, before the clamp
  (`CakeControl.CubicStartsAtBRate`). The model takes the curve's value as an
  input. Outside that branch there is no rate floor. The integer variant cuts
  by 10%, in `LegacyCake.Backoff`.
- The real-valued variant's "median" is not an order statistic. It depends
  only on the last sample and the parity of the slice length
  (`SampleWindow.LastSampleMedian`).
- The tick never averages an empty window, because it appends a sample just
  before averaging.
- In both variants a failed `tc` call returns from `cake()`, which ends the
  loop for good.
- Every request duration of a transaction logged in the `tsv` format is
  taken as an RTT sample, including 0 when a timestamp is missing.

## Model

| member | source | states |
|---|---|---|
| `GoArith.Quo` | dnscrypt/dnscrypt-proxy/plugin_query_log.go:208-212 | Go's `/`: the remainder is smaller than the divisor and carries the dividend's sign (truncation toward zero) |
| `GoArith.Trunc` | cake-support/dnscrypt-proxy/plugin_query_log.go:292-294 | float-to-`Duration` conversion discards the fraction toward zero |
| `QueryLog.EqualFold` | dnscrypt/dnscrypt-proxy/plugin_query_log.go:163-169 | two names match iff they have equal length and agree character by character up to ASCII case |
| `QueryLog.Ignored` | dnscrypt/dnscrypt-proxy/plugin_query_log.go:163-169 | the ignore scan succeeds iff some entry case-insensitively equals the qtype |
| `QueryLog.LoggedServerName` | dnscrypt/dnscrypt-proxy/plugin_query_log.go:172-179 | the server name becomes "-" exactly on a cache hit or a Synth/Cloak/ParseError code, and is otherwise unchanged |
| `QueryLog.RequestDurationIsElapsedTime` | dnscrypt/dnscrypt-proxy/plugin_query_log.go:185-189 | with both timestamps set, the duration depends only on the distance between them (shifting both leaves it unchanged) and is non-negative when the end is not before the start |
| `QueryLog.Admit` | dnscrypt/dnscrypt-proxy/plugin_query_log.go:147-189 | a transaction is skipped iff its protocol is not udp/tcp/local_doh or its qtype (the empty string when the lookup misses) is on the ignore list; an admitted one carries the rewritten server name and the request duration, which is 0 unless both timestamps are set |
| `QueryLog.UnknownQtypeMatchesEmptyEntry` | dnscrypt/dnscrypt-proxy/plugin_query_log.go:158-169 | an unknown qtype is dropped whenever the ignore list holds an empty entry |
| `QueryLog.EqualFoldIsEquivalence` | dnscrypt/dnscrypt-proxy/plugin_query_log.go:163-169 | case-insensitive matching is reflexive, symmetric and transitive |
| `LegacyCake.CutKeepsNinetyPercent` | dnscrypt/dnscrypt-proxy/plugin_query_log.go:222-224 | the integer 10% cut keeps between 90% of the rate and 1 Mbit more, and lowers every rate of at least 10 |
| `LegacyCake.Backoff` | dnscrypt/dnscrypt-proxy/plugin_query_log.go:220-243 | after the cut, the floor is applied before the ceiling: the result is in `[lo, hi]`, equals the cut when the cut is in range, and is `lo` or `hi` otherwise |
| `LegacyCake.BackoffRates` | dnscrypt/dnscrypt-proxy/plugin_query_log.go:220-243 | both backed-off rates lie between their floor and the 4000 Mbit ceiling |
| `LegacyCake.EvalBackoffBounds` | dnscrypt/dnscrypt-proxy/plugin_query_log.go:220-243 | with the constant floors, a backed-off rate always lies in [1000, 4000] |
| `LegacyCake.BackoffNeverRaisesInBandRate` | dnscrypt/dnscrypt-proxy/plugin_query_log.go:220-243 | a rate in the band never rises under the backoff, and every rate above the floor strictly falls |
| `LegacyCake.Rate` | dnscrypt/dnscrypt-proxy/plugin_query_log.go:56-88 | the loop's rates are backed off exactly when its converted local new RTT exceeds the old one, and pass through untouched otherwise; when they change (with floors not above the ceiling) both land between their floor and the 4000 Mbit ceiling |
| `LegacyCake.LoopStep` | dnscrypt/dnscrypt-proxy/plugin_query_log.go:53-113 | the locals are divided by 1000 on every iteration; a failed uplink issues only one command; the loop carries on iff both pushes succeed; +1 Mbit is added only then, with no clamp |
| `LegacyCake.RegressionIterationNeverRaises` | dnscrypt/dnscrypt-proxy/plugin_query_log.go:59-112 | with the constant floors and in-band rates, an iteration that sees a regression never raises a rate above the floor, even after its +1 Mbit; a rate on the floor ends 1 Mbit above it |
| `LegacyCake.SettledLoopGrowsByOne` | dnscrypt/dnscrypt-proxy/plugin_query_log.go:65-112 | once the locals are 0, n successful iterations add exactly n Mbit per direction, without limit |
| `LegacyCake.LoopLocalsSettle` | dnscrypt/dnscrypt-proxy/plugin_query_log.go:50-57 | local RTTs of either sign and below 1 s in magnitude reach 0 within three truncating iterations |
| `LegacyCake.Control` | dnscrypt/dnscrypt-proxy/plugin_query_log.go:207-266 | the new RTT is the duration in µs; the stored RTT is divided by 1000 before the comparison; the rates are backed off iff the RTT grew; the uplink command comes first and the downlink command is issued only after it succeeded, each with the µs RTT and its direction's rate; the RTT is committed only after both pushes; the error message names the failed direction |
| `LegacyCake.Eval` | dnscrypt/dnscrypt-proxy/plugin_query_log.go:147-284 | filtered transactions return nil with no change; an admitted one gets the rewritten server name; tsv is exactly the controller step followed, when that succeeded, by the log-writer check (nil iff the writer exists); ltsv is only that check; an unknown format is fatal |
| `LegacyCake.EvalNoRegressionKeepsRates` | dnscrypt/dnscrypt-proxy/plugin_query_log.go:220-266 | without a regression the rates are unchanged |
| `LegacyCake.EvalRegressionBounds` | dnscrypt/dnscrypt-proxy/plugin_query_log.go:220-243 | after a regression both rates lie in [1000, 4000] |
| `LegacyCake.EvalUplinkFailure` | dnscrypt/dnscrypt-proxy/plugin_query_log.go:249-255 | a failed uplink returns "Failed setting up cakeUplink", issues no downlink command, and leaves only the divided old RTT |
| `LegacyCake.EvalCommitsOnlyAfterBothApplies` | dnscrypt/dnscrypt-proxy/plugin_query_log.go:249-266 | when the converted new and old RTTs differ, the stored RTT equals the new one iff both pushes succeeded |
| `LegacyCake.SteadyRttReadsAsRegression` | dnscrypt/dnscrypt-proxy/plugin_query_log.go:208-266 | as written, two equal 50 ms transactions cut the rates from 3000 to 2700 Mbit |
| `LegacyCake.EvalConvertOnce` | dnscrypt/dnscrypt-proxy/plugin_query_log.go:208-266 | the corrected hook: the same commands, status, server name, rates and new RTT as the code; the stored RTT is the request duration in ns after a committing call and unchanged otherwise |
| `LegacyCake.ConvertOnceComparesConsecutiveSamples` | dnscrypt/dnscrypt-proxy/plugin_query_log.go:208-266 | with the correction and whatever the first call's pushes returned, the second call backs off iff it is slower (in µs) than the last committed RTT, which is the first call's duration when both its pushes succeeded |
| `LegacyCake.ConvertOnceSurvivesFailedPush` | dnscrypt/dnscrypt-proxy/plugin_query_log.go:249-266 | with the correction, a 50 ms call whose uplink push fails and then a committing 50 ms call leave the rates at 3000 Mbit and the stored RTT in ns |
| `SampleWindow.Evict` | cake-support/dnscrypt-proxy/plugin_query_log.go:249-257 | a window at the limit loses exactly its oldest element in every slice; a smaller window is unchanged |
| `SampleWindow.Push` | cake-support/dnscrypt-proxy/plugin_query_log.go:274-277 | every slice grows by one, and the new sample is last |
| `SampleWindow.RecordKeepsWindowValid` | cake-support/dnscrypt-proxy/plugin_query_log.go:249-277 | eviction plus append keeps the slices parallel, the length at most `cakeDataLimit`, and the new sample last |
| `SampleWindow.RecordOnFullWindow` | cake-support/dnscrypt-proxy/plugin_query_log.go:249-277 | a full window stays full and becomes its tail plus the new sample |
| `SampleWindow.RecordBelowLimit` | cake-support/dnscrypt-proxy/plugin_query_log.go:249-277 | a window below the limit simply grows |
| `SampleWindow.Mean` | cake-support/dnscrypt-proxy/plugin_query_log.go:292-296 | the mean times the length is the sum of the slice |
| `SampleWindow.MeanBounds` | cake-support/dnscrypt-proxy/plugin_query_log.go:286-296 | the mean lies between any lower and upper bound of the samples |
| `SampleWindow.Averages` | cake-support/dnscrypt-proxy/plugin_query_log.go:279-296 | the accumulation loop yields the three means |
| `SampleWindow.LastSampleMedian` | cake-support/dnscrypt-proxy/plugin_query_log.go:298-308 | for the last sample x: `2m = x+1` on odd length and `4m = 3x+2` on even length |
| `SampleWindow.LastSampleMedianIgnoresHistory` | cake-support/dnscrypt-proxy/plugin_query_log.go:298-308 | slices with the same last sample and length parity give the same value |
| `SampleWindow.LastSampleMedianWithin` | cake-support/dnscrypt-proxy/plugin_query_log.go:298-308 | a last sample in (0, c] with c ≥ 2 gives a value in (0, c] |
| `SampleWindow.LastSampleMedianOfEvenExample` | cake-support/dnscrypt-proxy/plugin_query_log.go:298-312 | on {2,4,6,8} the value is 6.5, not the order-statistic median 5 |
| `SampleWindow.LastSampleMedianOfOddExample` | cake-support/dnscrypt-proxy/plugin_query_log.go:298-312 | on {2,4,6} the value is 3.5, not the order-statistic median 4 |
| `CakeControl.Ceiling` | cake-support/dnscrypt-proxy/plugin_query_log.go:230-231 | the ceiling is 90% of the maximum, so for a positive maximum it is positive and strictly below it |
| `CakeControl.ScaleUp` | cake-support/dnscrypt-proxy/plugin_query_log.go:259-272 | the result is at most the ceiling; a rate at or above the ceiling becomes the ceiling; a rate whose double is below the ceiling doubles; otherwise it becomes the ceiling |
| `CakeControl.ScaleUpGrowsTowardCeiling` | cake-support/dnscrypt-proxy/plugin_query_log.go:259-272 | a rate in [0, ceiling] never falls and stays positive |
| `CakeControl.ScaleUpMonotone` | cake-support/dnscrypt-proxy/plugin_query_log.go:259-272 | auto-scaling preserves the order of rates |
| `CakeControl.ClampRecovery` | cake-support/dnscrypt-proxy/plugin_query_log.go:331-344 | any cubic value ends in [1 Mbit, 10 Mbit] and is kept when already inside |
| `CakeControl.CubicStartsAtBRate` | cake-support/dnscrypt-proxy/plugin_query_log.go:321-329 | with `K` the cube root of `rate·(1−B)/C`, the cubic curve gives `B·rate` at `T = 0` and the old rate again at `T = K` |
| `CakeControl.NormaliseRttUs` | cake-support/dnscrypt-proxy/plugin_query_log.go:349-357 | the pushed RTT is in [10000, 1000000] µs; an RTT inside [metro, satellite] is only divided by 1000 |
| `CakeControl.NormaliseRttMonotone` | cake-support/dnscrypt-proxy/plugin_query_log.go:349-357 | normalisation preserves the order of RTTs |
| `CakeControl.DecideGso` | cake-support/dnscrypt-proxy/plugin_query_log.go:359-364 | split-gso below 100 Mbit in either direction; no-split-gso when both are at least 100 and one is above it; the previous mode when both are exactly 100 |
| `CakeLoop.Start` | cake-support/dnscrypt-proxy/plugin_query_log.go:229-235 | the prologue sets both rates to the configured maximum and changes nothing else |
| `CakeLoop.Settle` | cake-support/dnscrypt-proxy/plugin_query_log.go:298-347 | with the flag set the rate is the cubic value clamped to [1, 10] Mbit: kept when inside, the nearer bound otherwise; without the flag it is the "median" |
| `CakeLoop.Tick` | cake-support/dnscrypt-proxy/plugin_query_log.go:238-381 | one loop iteration: the window becomes the old one with eviction and the scaled-up sample appended, staying parallel and bounded; the statistics are those of that window; the flag is cleared; flagged rates are the clamped cubic values; the pushed RTT is in [10000, 1000000] µs; the loop carries on iff both pushes succeed, and the downlink is not pushed after an uplink failure |
| `CakeLoop.TickKeepsRatesInRange` | cake-support/dnscrypt-proxy/plugin_query_log.go:259-347 | rates in (0, 90% ceiling] stay there across a tick, whatever the cubic value |
| `CakeLoop.FirstTickFromStart` | cake-support/dnscrypt-proxy/plugin_query_log.go:229-308 | the first tick records 3600000 kbit and settles both rates at 1800000.5 kbit with no-split-gso |
| `CakeLoop.Step` | cake-support/dnscrypt-proxy/plugin_query_log.go:238-381 | one hook call (which may raise the flag) followed by a successful tick preserves the window invariant and the rate range |
| `CakeLoop.Ticks` | cake-support/dnscrypt-proxy/plugin_query_log.go:238-381 | any number of rounds of a hook call and a successful tick, with the flag raised between ticks whenever a transaction regresses and separate uplink and downlink cubic values, preserves the window invariant and the rate range |
| `CakeLoop.Eval` | cake-support/dnscrypt-proxy/plugin_query_log.go:486-579 | filtered transactions return nil with no change; an admitted one gets the rewritten server name; only tsv touches the state, setting both RTTs to the duration and raising the flag on a regression while keeping the rest; an unknown format is fatal |
| `CakeLoop.EvalRaisesFlagIffSlower` | cake-support/dnscrypt-proxy/plugin_query_log.go:546-561 | from a clear flag, the flag is raised iff the duration exceeds the stored RTT |
| `CakeLoop.RegressionThenTick` | cake-support/dnscrypt-proxy/plugin_query_log.go:314-364 | a regression seen by Eval makes the next tick settle both rates in [1, 10] Mbit, clear the flag and select split-gso |

## Left out

- `QueryLog.EqualFold`: folds ASCII letters only. Go's `strings.EqualFold` uses Unicode simple case folding (e.g. the Kelvin sign matches `k`), and the model does not include those tables.
- `SampleWindow.Mean`: requires a non-empty slice. The source's float division on an empty slice would give NaN, but the tick always appends before averaging.
- `CakeLoop.Tick`: takes the cubic formula's result (`math.Cbrt`, `math.Pow`, `time.Since`) as arbitrary real inputs. This is floating-point and wall-clock maths. `kUL`, `kDL`, `lastBufferbloatTimeElapsed` and `lastBufferbloatTimestamp` are not modelled.
- Floating point: the float64 rates and sums are modelled as exact reals, so IEEE-754 rounding is not modelled.
- Integer width: `time.Duration` and Go `int` are modelled unbounded. The model does not cover 64-bit overflow of `bw*10`, of the unclamped `bwUL++`, or of `time.Sub`'s saturation.
- The execution-time slice `cakeExecTimeArr` and its average, plus the `Cake` JSON status record and its strings: these are timing and formatting only. The slice is evicted in step with the modelled slices and would not change them.
- `tc` invocation: each call is an `Applied | Failed` input. The `%dus`/`%dmbit`/`%fkbit` text of the command line and the printed error output are not modelled. A command is represented by its device, RTT, rate and mode.
- `time.Sleep` and the infinite `for` loop: one iteration is a step function, `Ticks`/`Run` chain successful iterations, and a failed push ends the chain with `running` false.
- Log line formatting, `time.Now`, `StringQuote`, `logger.Write`, and the `dns.TypeToString`/`PluginsReturnCodeToString` tables: the qtype lookup is an input (`Option<string>`). Return codes other than Synth, Cloak and ParseError are `OtherCode`, because the table of codes (plugins.go) is not part of this model. `msg.Question[0]` on an empty question section is not modelled.
- `Name`, `Description`, `Init`, `Drop` and `Reload` of the plugin: they only return constants or copy configuration.
- `oisdBigFetch` and `cakeServer`: HTTP fetch, file I/O, TLS and the Gin server.
- The unsynchronised sharing of the globals between `Eval` and the `cake()` goroutine: this is a data race. The model only composes whole calls sequentially (`CakeLoop.RegressionThenTick`, and one hook call per tick in `CakeLoop.Step`).
- Who starts the integer variant's `cake()`, and with which arguments: the caller is not part of this model, so `LoopLocals` is a parameter.

## Findings

| source | as written | input that shows it | evidently intended | confidence | as-written member | corrected member |
|---|---|---|---|---|---|---|
| dnscrypt/dnscrypt-proxy/plugin_query_log.go:208-266 | The committed RTT is already in microseconds, but the next call divides the stored RTT by 1000 again before the comparison. The new RTT is therefore compared against a value 1000 times too small. | Starting from 3000 Mbit, two consecutive tsv transactions of 50 ms each, all pushes succeeding. The second one backs both rates off to 2700 Mbit, although the RTT did not grow. | Compare each new RTT with the last committed one in the same unit, converting each exactly once, also after a failed push. | not executed; high, since the initial value is in ns and the comment says the division converts to microseconds | `LegacyCake.SteadyRttReadsAsRegression` | `LegacyCake.ConvertOnceComparesConsecutiveSamples` |

`LegacyCake.Eval` stays as written, because it is the model of the code.
`LegacyCake.EvalConvertOnce` is the corrected hook, and the finding's
property is proved about it.

=== FILE: cake_control.dfy ===
/**
 * The per-tick arithmetic of the newer controller
 * (cake-support/dnscrypt-proxy/plugin_query_log.go). Rates are kbit/s and
 * held as reals (the source's float64); RTTs are integer nanoseconds
 * (`time.Duration`) until they are converted to microseconds for the shaper.
 */
module CakeControl {
  import opened GoArith

  /** Configured maximum rates, kbit/s. */
  const MaxUL: real := 4000000.0
  const MaxDL: real := 4000000.0

  /** 1 Mbit in kbit. */
  const Mbit: real := 1000.0

  /** RTT normalisation bounds, ns: 10 ms and 1 s. */
  const MetroRtt: int := 10000000
  const SatelliteRtt: int := 1000000000

  /** The cubic curve's constants: the rate it restarts from is `B` times the old one, and `C` scales it. */
  const B: real := 0.70
  const C: real := 0.40

  /** The cubic recovery curve `C*(T-K)^3 + bw` at `T` seconds, with `K` its inflection point. */
  function Cubic(t: real, k: real, bw: real): real {
    C * (t - k) * (t - k) * (t - k) + bw
  }

  /**
   * With `K` the cube root of `bw*(1-B)/C`, the curve starts at `B*bw` (a 30%
   * cut) at `T = 0` and climbs back to `bw` at `T = K`.
   */
  lemma CubicStartsAtBRate(k: real, bw: real)
    requires k * k * k == bw * (1.0 - B) / C
    ensures Cubic(0.0, k, bw) == B * bw
    ensures Cubic(k, k, bw) == bw
  {
  }

  /** The auto-scale ceiling, `max*90/100`. */
  function Ceiling(max: real): (c: real)
    ensures 10.0 * c == 9.0 * max
    ensures 0.0 < max ==> 0.0 < c < max
  {
    (max * 90.0) / 100.0
  }

  /**
   * The auto-scale step: a rate below the ceiling doubles, and anything that
   * reaches or was already at the ceiling is set to it.
   */
  function ScaleUp(bw: real, ceiling: real): (r: real)
    ensures r <= ceiling
    ensures bw >= ceiling ==> r == ceiling
    ensures bw < ceiling && 2.0 * bw < ceiling ==> r == 2.0 * bw
    ensures bw < ceiling <= 2.0 * bw ==> r == ceiling
  {
    var doubled := if bw < ceiling then bw * 2.0 else bw;
    if doubled >= ceiling then ceiling else doubled
  }

  /** Scaling up never lowers a non-negative rate and never crosses the ceiling from below. */
  lemma ScaleUpGrowsTowardCeiling(bw: real, ceiling: real)
    requires 0.0 <= bw <= ceiling
    ensures bw <= ScaleUp(bw, ceiling) <= ceiling
    ensures 0.0 < bw ==> 0.0 < ScaleUp(bw, ceiling)
  {
  }

  /** Scaling up is monotone in the rate. */
  lemma ScaleUpMonotone(a: real, b: real, ceiling: real)
    requires a <= b
    ensures ScaleUp(a, ceiling) <= ScaleUp(b, ceiling)
  {
  }

  /**
   * The clamp applied to the cubic recovery value while the bufferbloat flag
   * is set: raised to 1 Mbit, then lowered to 10 Mbit.
   */
  function ClampRecovery(cubic: real): (r: real)
    ensures Mbit <= r <= 10.0 * Mbit
    ensures Mbit <= cubic <= 10.0 * Mbit ==> r == cubic
    ensures cubic < Mbit ==> r == Mbit
    ensures cubic > 10.0 * Mbit ==> r == 10.0 * Mbit
  {
    var raised := if cubic < Mbit then Mbit else cubic;
    if raised > 10.0 * Mbit then 10.0 * Mbit else raised
  }

  /**
   * The RTT handed to the shaper: the averaged RTT (ns) forced into
   * [metro, satellite] and converted to microseconds.
   */
  function NormaliseRttUs(rtt: int): (us: int)
    ensures 10000 <= us <= 1000000
    ensures MetroRtt <= rtt <= SatelliteRtt ==> us == rtt / Microsecond
    ensures rtt < MetroRtt ==> us == MetroRtt / Microsecond
    ensures rtt > SatelliteRtt ==> us == SatelliteRtt / Microsecond
  {
    var clamped := if rtt < MetroRtt then MetroRtt else if rtt > SatelliteRtt then SatelliteRtt else rtt;
    QuoOfNonNegative(clamped, Microsecond);
    Quo(clamped, Microsecond)
  }

  /** Normalisation preserves the order of RTTs. */
  lemma NormaliseRttMonotone(a: int, b: int)
    requires a <= b
    ensures NormaliseRttUs(a) <= NormaliseRttUs(b)
  {
  }

  /** The `tc` segmentation mode (`autoSplitGSO`). */
  datatype GsoMode = SplitGso | NoSplitGso

  /**
   * The segmentation decision: split below 100 Mbit in either direction, no
   * split above it, and the previous mode when both sit exactly on it.
   */
  function DecideGso(ul: real, dl: real, previous: GsoMode): (m: GsoMode)
    ensures ul < 100.0 * Mbit || dl < 100.0 * Mbit ==> m == SplitGso
    ensures ul >= 100.0 * Mbit && dl >= 100.0 * Mbit && (ul > 100.0 * Mbit || dl > 100.0 * Mbit) ==> m == NoSplitGso
    ensures ul == 100.0 * Mbit && dl == 100.0 * Mbit ==> m == previous
  {
    if ul < 100.0 * Mbit || dl < 100.0 * Mbit then SplitGso
    else if ul > 100.0 * Mbit || dl > 100.0 * Mbit then NoSplitGso
    else previous
  }
}

=== FILE: cake_loop.dfy ===
/**
 * The newer controller (cake-support/dnscrypt-proxy/plugin_query_log.go):
 * the package-level state shared by the query-log hook and the `cake()`
 * goroutine, one iteration of that goroutine's loop, and the hook's RTT
 * hand-off. The cubic recovery value and the `tc` results are inputs.
 */
module CakeLoop {
  import opened GoArith
  import opened Shaper
  import opened QueryLog
  import opened SampleWindow
  import opened CakeControl

  /** One `tc qdisc replace dev <dev> root cake rtt <rttUs>us bandwidth <kbit>kbit <gso>`. */
  datatype Command = Command(dev: string, rttUs: int, kbit: real, gso: GsoMode)

  /** The statistics a tick leaves in the package-level variables. */
  datatype Stats = Stats(
    rttAverage: int,     // rttAvgDuration, ns
    upAverage: real,     // bwUpAvgTotal
    downAverage: real,   // bwDownAvgTotal
    upMedian: real,      // bwUpMedTotal
    downMedian: real,    // bwDownMedTotal
    rttUs: int)          // newRTTus once converted, the RTT pushed to the shaper

  /** The package-level state of the controller. */
  datatype CakeState = CakeState(
    ul: real,            // bwUL, kbit/s
    dl: real,            // bwDL, kbit/s
    newRtt: int,         // ns, written by Eval
    oldRtt: int,         // ns, written by Eval
    bufferbloat: bool,   // raised by Eval, cleared by the tick
    gso: GsoMode,        // autoSplitGSO
    window: Window,
    stats: Stats)

  /** The package-level initial values. */
  const Initial: CakeState :=
    CakeState(2.0, 2.0, 100000000, 100000000, false, SplitGso, Empty,
              Stats(0, 0.0, 0.0, 0.0, 0.0, 100000))

  /** The prologue of `cake()`: both rates start at the configured maximum. */
  function Start(s: CakeState): (r: CakeState)
    ensures r.ul == MaxUL && r.dl == MaxDL
    ensures r.(ul := s.ul, dl := s.dl) == s
  {
    s.(ul := MaxUL, dl := MaxDL)
  }

  /** One iteration: the new state, the commands issued, and whether the loop carries on. */
  datatype TickOutcome = TickOutcome(state: CakeState, commands: seq<Command>, running: bool)

  /** The rate a tick settles on: the clamped cubic value after a bufferbloat signal, else the "median". */
  function Settle(bufferbloat: bool, median: real, cubic: real): (r: real)
    ensures bufferbloat ==> Mbit <= r <= 10.0 * Mbit
    ensures bufferbloat && Mbit <= cubic <= 10.0 * Mbit ==> r == cubic
    ensures bufferbloat && cubic < Mbit ==> r == Mbit
    ensures bufferbloat && cubic > 10.0 * Mbit ==> r == 10.0 * Mbit
    ensures !bufferbloat ==> r == median
  {
    if bufferbloat then ClampRecovery(cubic) else median
  }

  /**
   * One iteration of the loop in `cake()`. `cubicUL`/`cubicDL` stand for the
   * values the cubic formula produces (only read when the bufferbloat flag is
   * set); `up`/`down` are the results of the two `tc` calls.
   */
  function Tick(s: CakeState, cubicUL: real, cubicDL: real, up: ApplyResult, down: ApplyResult): (o: TickOutcome)
    requires Parallel(s.window)
    // the window: parallel, bounded, never empty, newest sample last
    ensures Parallel(o.state.window)
    ensures Valid(s.window) ==> Valid(o.state.window)
    ensures o.state.window ==
              Record(s.window, CakeData(s.newRtt, ScaleUp(s.ul, Ceiling(MaxUL)), ScaleUp(s.dl, Ceiling(MaxDL))))
    ensures var w := o.state.window;
            |w.data| > 0
            && w.data[|w.data| - 1] ==
               CakeData(s.newRtt, ScaleUp(s.ul, Ceiling(MaxUL)), ScaleUp(s.dl, Ceiling(MaxDL)))
    // statistics over the current window
    ensures o.state.stats.rttAverage == Trunc(Mean(o.state.window.rtt))
    ensures o.state.stats.upAverage == Mean(o.state.window.up)
    ensures o.state.stats.downAverage == Mean(o.state.window.down)
    ensures o.state.stats.upMedian == LastSampleMedian(o.state.window.up)
    ensures o.state.stats.downMedian == LastSampleMedian(o.state.window.down)
    // bufferbloat handling
    ensures !o.state.bufferbloat
    ensures s.bufferbloat ==> Mbit <= o.state.ul <= 10.0 * Mbit && Mbit <= o.state.dl <= 10.0 * Mbit
    ensures s.bufferbloat ==> o.state.ul == ClampRecovery(cubicUL) && o.state.dl == ClampRecovery(cubicDL)
    ensures !s.bufferbloat ==> o.state.ul == o.state.stats.upMedian && o.state.dl == o.state.stats.downMedian
    // the pushed RTT and segmentation mode
    ensures 10000 <= o.state.stats.rttUs <= 1000000
    ensures o.state.stats.rttUs == NormaliseRttUs(o.state.stats.rttAverage)
    ensures o.state.gso == DecideGso(o.state.ul, o.state.dl, s.gso)
    // the RTT globals are Eval's alone
    ensures o.state.newRtt == s.newRtt && o.state.oldRtt == s.oldRtt
    // the shaper port
    ensures o.running <==> up.Applied? && down.Applied?
    ensures |o.commands| == (if up.Applied? then 2 else 1)
    ensures o.commands[0] == Command(UplinkInterface, o.state.stats.rttUs, o.state.ul, o.state.gso)
    ensures |o.commands| == 2 ==>
              o.commands[1] == Command(DownlinkInterface, o.state.stats.rttUs, o.state.dl, o.state.gso)
  {
    var sample := CakeData(s.newRtt, ScaleUp(s.ul, Ceiling(MaxUL)), ScaleUp(s.dl, Ceiling(MaxDL)));
    var w := Record(s.window, sample);
    var rttAverage := Trunc(Mean(w.rtt));
    var upMedian := LastSampleMedian(w.up);
    var downMedian := LastSampleMedian(w.down);
    var ul := Settle(s.bufferbloat, upMedian, cubicUL);
    var dl := Settle(s.bufferbloat, downMedian, cubicDL);
    var rttUs := NormaliseRttUs(rttAverage);
    var gso := DecideGso(ul, dl, s.gso);
    var stats := Stats(rttAverage, Mean(w.up), Mean(w.down), upMedian, downMedian, rttUs);
    var next := CakeState(ul, dl, s.newRtt, s.oldRtt, false, gso, w, stats);
    var upCmd := Command(UplinkInterface, rttUs, ul, gso);
    if up.Failed? then
      TickOutcome(next, [upCmd], false)
    else
      var downCmd := Command(DownlinkInterface, rttUs, dl, gso);
      TickOutcome(next, [upCmd, downCmd], down.Applied?)
  }

  /** The rate invariant the loop keeps: positive and at most the 90% ceiling. */
  predicate RatesInRange(s: CakeState) {
    0.0 < s.ul <= Ceiling(MaxUL) && 0.0 < s.dl <= Ceiling(MaxDL)
  }

  /** A tick started with rates in range leaves them in range, whatever the cubic value. */
  lemma TickKeepsRatesInRange(s: CakeState, cubicUL: real, cubicDL: real, up: ApplyResult, down: ApplyResult)
    requires Parallel(s.window)
    ensures RatesInRange(s) ==> RatesInRange(Tick(s, cubicUL, cubicDL, up, down).state)
  {
  }

  /**
   * The first tick after the prologue: the maximum is cut to the ceiling
   * (3.6 Gbit), stored as the first sample, and the one-sample "median"
   * halves it, so both rates come out at 1800000.5 kbit/s.
   */
  lemma FirstTickFromStart(cubicUL: real, cubicDL: real)
    ensures var o := Tick(Start(Initial), cubicUL, cubicDL, Applied, Applied);
            o.state.window.up == [3600000.0] && o.state.ul == 1800000.5 && o.state.dl == 1800000.5
            && o.state.gso == NoSplitGso && RatesInRange(o.state)
  {
  }

  /**
   * One round of the two goroutines interleaved: the query-log hook sees one
   * transaction (a skipped one stands for none), then a tick in which both
   * pushes succeed runs with each direction's own cubic value.
   */
  function Step(s: CakeState, p: Plugin, t: Transaction, cubicUL: real, cubicDL: real): (r: CakeState)
    requires Parallel(s.window)
    ensures Parallel(r.window)
    ensures Valid(s.window) && RatesInRange(s) ==> Valid(r.window) && RatesInRange(r)
  {
    var seen := Eval(p, s, t).state;
    TickKeepsRatesInRange(seen, cubicUL, cubicDL, Applied, Applied);
    Tick(seen, cubicUL, cubicDL, Applied, Applied).state
  }

  /**
   * `n` rounds of `Step`, with the transactions drawn from `ts` and the
   * uplink and downlink cubic values from `cubicUL` and `cubicDL`: however
   * the hook raises the flag between ticks, the window stays valid and the
   * rates stay in range.
   */
  function Ticks(s: CakeState, p: Plugin, ts: seq<Transaction>, cubicUL: seq<real>, cubicDL: seq<real>, n: nat): (r: CakeState)
    requires Parallel(s.window) && |ts| >= n && |cubicUL| >= n && |cubicDL| >= n
    ensures Parallel(r.window)
    ensures Valid(s.window) && RatesInRange(s) ==> Valid(r.window) && RatesInRange(r)
    decreases n
  {
    if n == 0 then s else Ticks(Step(s, p, ts[0], cubicUL[0], cubicDL[0]), p, ts[1..], cubicUL[1..], cubicDL[1..], n - 1)
  }

  // ---------------------------------------------------------------------------
  // The query-log hook
  // ---------------------------------------------------------------------------

  /** What one `Eval` call leaves behind, with the server name it writes back into the plugin state. */
  datatype EvalOutcome = EvalOutcome(state: CakeState, status: Status, serverName: string)

  /** `PluginQueryLog.Eval` of the newer variant: it hands the request duration over as the RTT sample. */
  function Eval(p: Plugin, s: CakeState, t: Transaction): (o: EvalOutcome)
    ensures Admit(p, t).Skipped? ==> o == EvalOutcome(s, Nil, t.serverName)
    ensures Admit(p, t).Admitted? ==> o.serverName == LoggedServerName(t)
    ensures p.format != "tsv" ==> o.state == s
    ensures p.format == "tsv" && Admit(p, t).Admitted? ==>
              o.state.newRtt == RequestDuration(t)
              && o.state.oldRtt == RequestDuration(t)
              && o.state.bufferbloat == (s.bufferbloat || RequestDuration(t) > s.oldRtt)
              && o.state.(newRtt := s.newRtt, oldRtt := s.oldRtt, bufferbloat := s.bufferbloat) == s
    ensures Admit(p, t).Admitted? && (p.format == "tsv" || p.format == "ltsv") ==> o.status == WriteLine(p)
    ensures Admit(p, t).Admitted? && p.format != "tsv" && p.format != "ltsv" ==> o.status.FatalExit?
  {
    match Admit(p, t)
    case Skipped => EvalOutcome(s, Nil, t.serverName)
    case Admitted(_, name, duration) =>
      if p.format == "tsv" then
        var raised := if duration > s.oldRtt then true else s.bufferbloat;
        EvalOutcome(s.(newRtt := duration, oldRtt := duration, bufferbloat := raised), WriteLine(p), name)
      else if p.format == "ltsv" then
        EvalOutcome(s, WriteLine(p), name)
      else
        EvalOutcome(s, UnexpectedFormat(p), name)
  }

  /** From a clear flag, a logged tsv transaction raises it exactly when it is slower than the last. */
  lemma EvalRaisesFlagIffSlower(p: Plugin, s: CakeState, t: Transaction)
    requires !s.bufferbloat && p.format == "tsv" && Admit(p, t).Admitted?
    ensures Eval(p, s, t).state.bufferbloat <==> RequestDuration(t) > s.oldRtt
  {
  }

  /**
   * A regression seen by `Eval` makes the next tick settle both rates in
   * [1 Mbit, 10 Mbit], whatever the cubic values, clears the flag, and
   * selects split-gso, since both rates are then below 100 Mbit.
   */
  lemma RegressionThenTick(p: Plugin, s: CakeState, t: Transaction, cubicUL: real, cubicDL: real,
                           up: ApplyResult, down: ApplyResult)
    requires Parallel(s.window) && p.format == "tsv" && Admit(p, t).Admitted?
    requires RequestDuration(t) > s.oldRtt
    ensures var o := Tick(Eval(p, s, t).state, cubicUL, cubicDL, up, down);
            Mbit <= o.state.ul <= 10.0 * Mbit && Mbit <= o.state.dl <= 10.0 * Mbit
            && !o.state.bufferbloat && o.state.gso == SplitGso
  {
  }
}

=== FILE: go_arith.dfy ===
/**
 * Go's integer and conversion semantics that the controller relies on.
 * Dafny's `/` on `int` is Euclidean; Go's truncates toward zero, and a
 * float64-to-integer conversion in Go discards the fraction.
 */
module GoArith {

  /** `time.Microsecond`, in nanoseconds. */
  const Microsecond: int := 1000

  function Abs(x: int): nat {
    if x < 0 then -x else x
  }

  /** Go's `a / b` on signed integers: the quotient truncated toward zero. */
  function Quo(a: int, b: int): (q: int)
    requires b != 0
    // the remainder is smaller than the divisor and carries the dividend's sign
    ensures Abs(a - q * b) < Abs(b)
    ensures a >= 0 ==> a - q * b >= 0
    ensures a <= 0 ==> a - q * b <= 0
  {
    if a >= 0 then
      (if b > 0 then a / b else -(a / -b))
    else
      (if b > 0 then -((-a) / b) else (-a) / (-b))
  }

  /** On a non-negative dividend and a positive divisor Go's and Dafny's division agree. */
  lemma QuoOfNonNegative(a: int, b: int)
    requires a >= 0 && b > 0
    ensures Quo(a, b) == a / b
  {
  }

  /** Go's `time.Duration(f)` / `int64(f)` for a float64 `f`: the fraction is discarded. */
  function Trunc(x: real): (n: int)
    ensures x >= 0.0 ==> n as real <= x < n as real + 1.0
    ensures x < 0.0 ==> n as real - 1.0 < x <= n as real
  {
    if x >= 0.0 then x.Floor else -((-x).Floor)
  }
}

=== FILE: legacy_cake.dfy ===
/**
 * The older, integer controller (dnscrypt/dnscrypt-proxy/plugin_query_log.go).
 *
 * Rates are whole Mbit. `Eval` takes each logged transaction's duration as
 * the new RTT, backs both rates off by 10% when it grew, pushes both rates to
 * the shaper and only then commits the RTT. The background `cake()` loop runs
 * the same backoff on its own (parameter) copies of the RTTs and adds 1 Mbit
 * per direction after every successful push.
 */
module LegacyCake {
  import opened GoArith
  import opened Shaper
  import opened QueryLog
  import opened Wrappers

  const MinUL: int := 1000
  const MinDL: int := 1000
  const MaxUL: int := 4000
  const MaxDL: int := 4000

  /** One `tc qdisc replace dev <dev> root cake rtt <rttUs>us bandwidth <mbit>mbit`. */
  datatype Command = Command(dev: string, rttUs: int, mbit: int)

  /** The package-level rates `bwUL`, `bwDL` (Mbit), shared by `Eval` and `cake()`. */
  datatype Rates = Rates(ul: int, dl: int)

  /** The package-level state `Eval` works on. */
  datatype Globals = Globals(rates: Rates, newRtt: int, oldRtt: int)

  /** `cake()`'s own parameters, which shadow the globals of the same names. */
  datatype LoopLocals = LoopLocals(minUL: int, minDL: int, newRtt: int, oldRtt: int)

  /** The initial package-level values: 2 Mbit each way and 100 ms (in ns) for both RTTs. */
  const InitialGlobals: Globals := Globals(Rates(2, 2), 100000000, 100000000)

  /** The 10% cut in integer arithmetic: `bw - bw*10/100`. */
  function Cut(bw: int): int {
    bw - Quo(bw * 10, 100)
  }

  /** A non-negative rate keeps at least 90% of itself and loses less than 1 Mbit more. */
  lemma CutKeepsNinetyPercent(bw: int)
    requires bw >= 0
    ensures 9 * bw <= 10 * Cut(bw) < 9 * bw + 10
    ensures bw >= 10 ==> Cut(bw) < bw
    ensures 0 <= bw < 10 ==> Cut(bw) == bw
  {
  }

  /** The backoff of one direction: the cut, raised to `lo`, then lowered to `hi`. */
  function Backoff(bw: int, lo: int, hi: int): (r: int)
    ensures lo <= hi ==> lo <= r <= hi
    ensures lo <= Cut(bw) <= hi ==> r == Cut(bw)
    ensures Cut(bw) < lo ==> r == (if lo <= hi then lo else hi)
    ensures Cut(bw) > hi ==> r == hi
  {
    var c := Cut(bw);
    var raised := if c < lo then lo else c;
    if raised > hi then hi else raised
  }

  /** Both directions backed off, against the given floors and the constant ceilings. */
  function BackoffRates(r: Rates, minUL: int, minDL: int): (b: Rates)
    ensures minUL <= MaxUL ==> minUL <= b.ul <= MaxUL
    ensures minDL <= MaxDL ==> minDL <= b.dl <= MaxDL
  {
    Rates(Backoff(r.ul, minUL, MaxUL), Backoff(r.dl, minDL, MaxDL))
  }

  /** With the constant floors, a backed-off rate always lies in [1000, 4000] Mbit. */
  lemma EvalBackoffBounds(r: Rates)
    ensures 1000 <= BackoffRates(r, MinUL, MinDL).ul <= 4000
    ensures 1000 <= BackoffRates(r, MinUL, MinDL).dl <= 4000
  {
  }

  /** A rate inside the band never rises, and every rate above the floor strictly falls. */
  lemma BackoffNeverRaisesInBandRate(bw: int)
    requires MinUL <= bw <= MaxUL
    ensures MinUL <= Backoff(bw, MinUL, MaxUL) <= bw
    ensures MinUL < bw ==> Backoff(bw, MinUL, MaxUL) < bw
  {
    CutKeepsNinetyPercent(bw);
  }

  // ---------------------------------------------------------------------------
  // The background loop
  // ---------------------------------------------------------------------------

  /** One iteration of `cake()`: the loop carries on, or returned after a failed push. */
  datatype LoopOutcome = LoopOutcome(locals: LoopLocals, rates: Rates, commands: seq<Command>, running: bool)

  /** One iteration of the loop body of `cake()`, given the results of its two `tc` calls. */
  function LoopStep(l: LoopLocals, r: Rates, up: ApplyResult, down: ApplyResult): (o: LoopOutcome)
    ensures o.locals == LoopLocals(l.minUL, l.minDL, Quo(l.newRtt, Microsecond), Quo(l.oldRtt, Microsecond))
    ensures o.running <==> up.Applied? && down.Applied?
    ensures |o.commands| == (if up.Applied? then 2 else 1)
    ensures o.commands[0] == Command(UplinkInterface, o.locals.newRtt, Rate(l, r).ul)
    ensures |o.commands| == 2 ==> o.commands[1] == Command(DownlinkInterface, o.locals.newRtt, Rate(l, r).dl)
    // the increment happens only after both pushes, and is never clamped
    ensures o.running ==> o.rates == Rates(Rate(l, r).ul + 1, Rate(l, r).dl + 1)
    ensures !o.running ==> o.rates == Rate(l, r)
  {
    var locals := LoopLocals(l.minUL, l.minDL, Quo(l.newRtt, Microsecond), Quo(l.oldRtt, Microsecond));
    var rates := Rate(l, r);
    var upCmd := Command(UplinkInterface, locals.newRtt, rates.ul);
    if up.Failed? then
      LoopOutcome(locals, rates, [upCmd], false)
    else
      var downCmd := Command(DownlinkInterface, locals.newRtt, rates.dl);
      if down.Failed? then
        LoopOutcome(locals, rates, [upCmd, downCmd], false)
      else
        LoopOutcome(locals, Rates(rates.ul + 1, rates.dl + 1), [upCmd, downCmd], true)
  }

  /**
   * The rates the loop pushes: backed off when the converted local RTT grew.
   * Either the rates pass through untouched, or (with floors below the
   * ceilings) both land between their floor and the ceiling.
   */
  function Rate(l: LoopLocals, r: Rates): (pushed: Rates)
    ensures Quo(l.newRtt, Microsecond) <= Quo(l.oldRtt, Microsecond) ==> pushed == r
    ensures l.minUL <= MaxUL && l.minDL <= MaxDL ==>
              pushed == r || (l.minUL <= pushed.ul <= MaxUL && l.minDL <= pushed.dl <= MaxDL)
    ensures pushed != r ==> Quo(l.newRtt, Microsecond) > Quo(l.oldRtt, Microsecond)
    ensures Quo(l.newRtt, Microsecond) > Quo(l.oldRtt, Microsecond) ==> pushed == BackoffRates(r, l.minUL, l.minDL)
  {
    if Quo(l.newRtt, Microsecond) > Quo(l.oldRtt, Microsecond) then BackoffRates(r, l.minUL, l.minDL) else r
  }

  /**
   * With the constant floors and rates in the band, an iteration that sees a
   * regression never raises a rate, even after its +1 Mbit: a rate above the
   * floor loses at least that much to the cut, and a rate on the floor ends
   * one above it.
   */
  lemma RegressionIterationNeverRaises(l: LoopLocals, r: Rates)
    requires l.minUL == MinUL && l.minDL == MinDL
    requires MinUL <= r.ul <= MaxUL && MinDL <= r.dl <= MaxDL
    requires Quo(l.newRtt, Microsecond) > Quo(l.oldRtt, Microsecond)
    ensures var o := LoopStep(l, r, Applied, Applied);
            (MinUL < r.ul ==> o.rates.ul <= r.ul) && (r.ul == MinUL ==> o.rates.ul == MinUL + 1)
            && (MinDL < r.dl ==> o.rates.dl <= r.dl) && (r.dl == MinDL ==> o.rates.dl == MinDL + 1)
  {
  }

  /** `n` iterations of the loop in which every push succeeds. */
  function Run(l: LoopLocals, r: Rates, n: nat): (LoopLocals, Rates)
    decreases n
  {
    if n == 0 then (l, r)
    else
      var o := LoopStep(l, r, Applied, Applied);
      Run(o.locals, o.rates, n - 1)
  }

  /**
   * Once the loop's local RTTs have been divided down to zero they stay there,
   * no backoff fires again, and each iteration adds exactly 1 Mbit per
   * direction with no ceiling.
   */
  lemma {:induction false} SettledLoopGrowsByOne(l: LoopLocals, r: Rates, n: nat)
    requires l.newRtt == 0 && l.oldRtt == 0
    ensures Run(l, r, n).0 == l
    ensures Run(l, r, n).1 == Rates(r.ul + n, r.dl + n)
    decreases n
  {
    if n > 0 {
      var o := LoopStep(l, r, Applied, Applied);
      assert o.locals == l;
      assert o.rates == Rates(r.ul + 1, r.dl + 1);
      SettledLoopGrowsByOne(o.locals, o.rates, n - 1);
    }
  }

  /** Local RTTs below 1000^3 ns in magnitude reach zero within three truncating iterations. */
  lemma LoopLocalsSettle(l: LoopLocals, r: Rates)
    requires -1000000000 < l.newRtt < 1000000000 && -1000000000 < l.oldRtt < 1000000000
    ensures Run(l, r, 3).0.newRtt == 0 && Run(l, r, 3).0.oldRtt == 0
  {
  }

  // ---------------------------------------------------------------------------
  // The query-log hook
  // ---------------------------------------------------------------------------

  /** What the controller part of the `tsv` branch leaves behind: the globals, the `tc` commands, the status. */
  datatype ControlOutcome = ControlOutcome(globals: Globals, commands: seq<Command>, status: Status)

  /**
   * What one `Eval` call leaves behind: the controller outcome and the server
   * name it writes back into the caller's plugin state.
   */
  datatype EvalOutcome = EvalOutcome(globals: Globals, commands: seq<Command>, status: Status, serverName: string)

  /** The controller part of the `tsv` branch, after the filters. */
  function Control(g: Globals, duration: int, up: ApplyResult, down: ApplyResult): (o: ControlOutcome)
    // both RTTs are divided by 1000 before the comparison, on every call
    ensures o.globals.newRtt == Quo(duration, Microsecond)
    ensures o.globals.rates ==
              if Quo(duration, Microsecond) > Quo(g.oldRtt, Microsecond)
              then BackoffRates(g.rates, MinUL, MinDL) else g.rates
    // the RTT is committed only after both pushes succeeded
    ensures up.Applied? && down.Applied? ==> o.globals.oldRtt == o.globals.newRtt && o.status == Nil
    ensures up.Failed? ==>
              o.globals.oldRtt == Quo(g.oldRtt, Microsecond)
              && o.status == Err("Failed setting up cakeUplink")
    ensures up.Applied? && down.Failed? ==>
              o.globals.oldRtt == Quo(g.oldRtt, Microsecond)
              && o.status == Err("Failed setting up cakeDownlink")
    // the uplink is pushed first; the downlink only after the uplink succeeded
    ensures |o.commands| == (if up.Applied? then 2 else 1)
    ensures o.commands[0] == Command(UplinkInterface, Quo(duration, Microsecond), o.globals.rates.ul)
    ensures |o.commands| == 2 ==>
              o.commands[1] == Command(DownlinkInterface, Quo(duration, Microsecond), o.globals.rates.dl)
  {
    var newRtt := Quo(duration, Microsecond);
    var oldRtt := Quo(g.oldRtt, Microsecond);
    var rates := if newRtt > oldRtt then BackoffRates(g.rates, MinUL, MinDL) else g.rates;
    var upCmd := Command(UplinkInterface, newRtt, rates.ul);
    if up.Failed? then
      ControlOutcome(Globals(rates, newRtt, oldRtt), [upCmd], Err("Failed setting up cakeUplink"))
    else
      var downCmd := Command(DownlinkInterface, newRtt, rates.dl);
      if down.Failed? then
        ControlOutcome(Globals(rates, newRtt, oldRtt), [upCmd, downCmd], Err("Failed setting up cakeDownlink"))
      else
        ControlOutcome(Globals(rates, newRtt, newRtt), [upCmd, downCmd], Nil)
  }

  /**
   * `PluginQueryLog.Eval` of the integer variant. `up` and `down` are what the
   * two `tc` calls would return; `down` is ignored when the first one fails.
   */
  function Eval(p: Plugin, g: Globals, t: Transaction, up: ApplyResult, down: ApplyResult): (o: EvalOutcome)
    // filtered transactions and non-tsv formats leave the controller alone
    ensures Admit(p, t).Skipped? ==> o == EvalOutcome(g, [], Nil, t.serverName)
    ensures p.format != "tsv" ==> o.globals == g && o.commands == []
    // an admitted transaction has its server name rewritten, whatever follows
    ensures Admit(p, t).Admitted? ==> o.serverName == LoggedServerName(t)
    // the tsv branch is the controller step, then the log write if it succeeded
    ensures p.format == "tsv" && Admit(p, t).Admitted? ==>
              var c := Control(g, RequestDuration(t), up, down);
              o.globals == c.globals && o.commands == c.commands
              && o.status == (if c.status.Nil? then WriteLine(p) else c.status)
    ensures p.format == "ltsv" && Admit(p, t).Admitted? ==> o.status == WriteLine(p)
    ensures p.format != "tsv" && p.format != "ltsv" && Admit(p, t).Admitted? ==> o.status.FatalExit?
  {
    match Admit(p, t)
    case Skipped => EvalOutcome(g, [], Nil, t.serverName)
    case Admitted(_, name, duration) =>
      if p.format == "tsv" then
        var c := Control(g, duration, up, down);
        EvalOutcome(c.globals, c.commands, if c.status.Nil? then WriteLine(p) else c.status, name)
      else if p.format == "ltsv" then
        EvalOutcome(g, [], WriteLine(p), name)
      else
        EvalOutcome(g, [], UnexpectedFormat(p), name)
  }

  /** A logged tsv transaction no slower (after conversion) than the last one leaves the rates alone. */
  lemma EvalNoRegressionKeepsRates(p: Plugin, g: Globals, t: Transaction, up: ApplyResult, down: ApplyResult)
    requires Admit(p, t).Admitted? && p.format == "tsv"
    requires Quo(RequestDuration(t), Microsecond) <= Quo(g.oldRtt, Microsecond)
    ensures Eval(p, g, t, up, down).globals.rates == g.rates
  {
  }

  /** After any tsv transaction that regressed, both rates lie in [1000, 4000] Mbit. */
  lemma EvalRegressionBounds(p: Plugin, g: Globals, t: Transaction, up: ApplyResult, down: ApplyResult)
    requires Admit(p, t).Admitted? && p.format == "tsv"
    requires Quo(RequestDuration(t), Microsecond) > Quo(g.oldRtt, Microsecond)
    ensures var r := Eval(p, g, t, up, down).globals.rates;
            MinUL <= r.ul <= MaxUL && MinDL <= r.dl <= MaxDL
  {
  }

  /** A failed uplink push issues no downlink command and never commits the new RTT. */
  lemma EvalUplinkFailure(p: Plugin, g: Globals, t: Transaction, down: ApplyResult)
    requires Admit(p, t).Admitted? && p.format == "tsv"
    ensures var o := Eval(p, g, t, Failed, down);
            o.status == Err("Failed setting up cakeUplink")
            && |o.commands| == 1 && o.commands[0].dev == UplinkInterface
            && o.globals.oldRtt == Quo(g.oldRtt, Microsecond)
  {
  }

  /** The stored RTT becomes the new one exactly when both pushes succeed (given it differs). */
  lemma EvalCommitsOnlyAfterBothApplies(p: Plugin, g: Globals, t: Transaction, up: ApplyResult, down: ApplyResult)
    requires Admit(p, t).Admitted? && p.format == "tsv"
    requires Quo(RequestDuration(t), Microsecond) != Quo(g.oldRtt, Microsecond)
    ensures var o := Eval(p, g, t, up, down);
            o.globals.oldRtt == o.globals.newRtt <==> up.Applied? && down.Applied?
  {
  }
  // ---------------------------------------------------------------------------
  // The stored RTT is converted on every call
  // ---------------------------------------------------------------------------

  /** A tsv plugin with a working log writer, and a UDP query of type A lasting `nanos`. */
  const TsvPlugin: Plugin := Plugin("tsv", [], true)

  function Query(nanos: int): Transaction {
    Transaction("udp", Some("A"), false, OtherCode(0), "upstream", At(0), At(nanos))
  }

  /**
   * As written, the committed RTT (already in microseconds) is divided by
   * 1000 again on the next call, so two equally slow 50 ms transactions in a
   * row read as a regression and cut both rates from 3000 to 2700 Mbit.
   */
  lemma SteadyRttReadsAsRegression()
    ensures var g0 := InitialGlobals.(rates := Rates(3000, 3000));
            var g1 := Eval(TsvPlugin, g0, Query(50000000), Applied, Applied).globals;
            var g2 := Eval(TsvPlugin, g1, Query(50000000), Applied, Applied).globals;
            g1.rates == Rates(3000, 3000) && g1.oldRtt == 50000
            && g2.rates == Rates(2700, 2700)
  {
  }

  /**
   * `Eval` with the stored RTT always kept in nanoseconds: a committing call
   * stores the request duration, and a call that does not commit leaves the
   * stored value as it was, so the division at the start of the next call
   * converts it exactly once.
   */
  function EvalConvertOnce(p: Plugin, g: Globals, t: Transaction, up: ApplyResult, down: ApplyResult): (o: EvalOutcome)
    ensures var e := Eval(p, g, t, up, down);
            o.commands == e.commands && o.status == e.status && o.serverName == e.serverName
            && o.globals.rates == e.globals.rates && o.globals.newRtt == e.globals.newRtt
    ensures o.globals.oldRtt ==
              if p.format == "tsv" && Admit(p, t).Admitted? && up.Applied? && down.Applied?
              then RequestDuration(t) else g.oldRtt
  {
    var o := Eval(p, g, t, up, down);
    if p.format == "tsv" && Admit(p, t).Admitted? then
      var stored := if up.Applied? && down.Applied? then RequestDuration(t) else g.oldRtt;
      o.(globals := o.globals.(oldRtt := stored))
    else o
  }

  /**
   * With the conversion done once, the second of two transactions backs the
   * rates off exactly when it is slower, in microseconds, than the last
   * committed RTT: the first transaction's if both its pushes succeeded, the
   * earlier stored one otherwise. Equally slow transactions leave the rates alone.
   */
  lemma ConvertOnceComparesConsecutiveSamples(p: Plugin, g: Globals, t1: Transaction, t2: Transaction,
                                              up1: ApplyResult, down1: ApplyResult,
                                              up2: ApplyResult, down2: ApplyResult)
    requires p.format == "tsv" && Admit(p, t1).Admitted? && Admit(p, t2).Admitted?
    ensures var g1 := EvalConvertOnce(p, g, t1, up1, down1).globals;
            g1.oldRtt == (if up1.Applied? && down1.Applied? then RequestDuration(t1) else g.oldRtt)
    ensures var g1 := EvalConvertOnce(p, g, t1, up1, down1).globals;
            var g2 := EvalConvertOnce(p, g1, t2, up2, down2).globals;
            g2.rates ==
              if Quo(RequestDuration(t2), Microsecond) > Quo(g1.oldRtt, Microsecond)
              then BackoffRates(g1.rates, MinUL, MinDL) else g1.rates
    ensures var g1 := EvalConvertOnce(p, g, t1, up1, down1).globals;
            var g2 := EvalConvertOnce(p, g1, t2, up2, down2).globals;
            up1.Applied? && down1.Applied? ==>
              g2.rates ==
                if Quo(RequestDuration(t2), Microsecond) > Quo(RequestDuration(t1), Microsecond)
                then BackoffRates(g1.rates, MinUL, MinDL) else g1.rates
  {
  }

  /**
   * A failed push no longer corrupts the stored RTT: from 50 ms stored, a
   * 50 ms transaction whose uplink push fails and then another 50 ms
   * transaction that commits leave the rates at 3000 Mbit.
   */
  lemma ConvertOnceSurvivesFailedPush()
    ensures var g0 := Globals(Rates(3000, 3000), 50000000, 50000000);
            var g1 := EvalConvertOnce(TsvPlugin, g0, Query(50000000), Failed, Applied).globals;
            var g2 := EvalConvertOnce(TsvPlugin, g1, Query(50000000), Applied, Applied).globals;
            g1.oldRtt == 50000000 && g2.rates == Rates(3000, 3000)
  {
  }
}

=== FILE: query_log.dfy ===
/**
 * The part of the query-log plugin's `Eval` that both variants share: the
 * client-protocol filter, the ignored-qtype filter, the server-name rewrite,
 * the request duration and the choice of log format. Everything after it that
 * touches the rate controller lives in `LegacyCake` and `CakeLoop`.
 */
module QueryLog {
  import opened Wrappers

  /** The plugin return codes the server-name rewrite singles out; all others are `OtherCode`. */
  datatype ReturnCode = Synth | Cloak | ParseError | OtherCode(code: int)

  /** A wall-clock reading; `ZeroTime` is Go's zero `time.Time` (`IsZero()` holds). */
  datatype Instant = ZeroTime | At(nanos: int)

  /** The fields of the plugin state one DNS transaction carries into `Eval`. */
  datatype Transaction = Transaction(
    clientProto: string,
    qtypeName: Option<string>,   // the `dns.TypeToString` lookup of the question's type
    cacheHit: bool,
    returnCode: ReturnCode,
    serverName: string,
    requestStart: Instant,
    requestEnd: Instant)

  /** The plugin's configuration; `loggerReady` is false when its writer is nil. */
  datatype Plugin = Plugin(format: string, ignoredQtypes: seq<string>, loggerReady: bool)

  /** What `Eval` returns: nil, an error value, or the process exit of `dlog.Fatalf`. */
  datatype Status = Nil | Err(message: string) | FatalExit(message: string)

  /** The result of the filters: the transaction is dropped, or logged with these values. */
  datatype Admission = Skipped | Admitted(qtype: string, serverName: string, requestDuration: int)

  const LogFileError: string := "Log file not initialized"

  /** Client protocols whose transactions are logged; anything else is internal flow. */
  predicate LoggedProtocol(proto: string) {
    proto == "udp" || proto == "tcp" || proto == "local_doh"
  }

  /** The qtype string: the lookup's name, or the empty string when the lookup misses. */
  function QtypeString(t: Transaction): (q: string)
    ensures t.qtypeName.None? ==> q == ""
    ensures t.qtypeName.Some? ==> q == t.qtypeName.value
  {
    t.qtypeName.GetOr("")
  }

  /** ASCII case folding of one character. */
  function Fold(c: char): char {
    if 'A' <= c <= 'Z' then (c as int - 'A' as int + 'a' as int) as char else c
  }

  /** `strings.EqualFold`, restricted to ASCII folding: equal up to letter case. */
  function EqualFold(a: string, b: string): (r: bool)
    ensures r <==> |a| == |b| && forall i :: 0 <= i < |a| ==> Fold(a[i]) == Fold(b[i])
  {
    if |a| != |b| then false
    else if |a| == 0 then true
    else Fold(a[0]) == Fold(b[0]) && EqualFold(a[1..], b[1..])
  }

  /** The ignored-qtype scan: some entry of `ignored` case-insensitively equals `qtype`. */
  function Ignored(ignored: seq<string>, qtype: string): (r: bool)
    ensures r <==> exists i :: 0 <= i < |ignored| && EqualFold(ignored[i], qtype)
  {
    if |ignored| == 0 then false
    else EqualFold(ignored[0], qtype) || Ignored(ignored[1..], qtype)
  }

  /** The server name written to the log: `"-"` for cache hits and locally answered queries. */
  function LoggedServerName(t: Transaction): (name: string)
    ensures name == "-" || name == t.serverName
    ensures name != t.serverName ==> t.cacheHit || t.returnCode in {Synth, Cloak, ParseError}
    ensures t.cacheHit || t.returnCode in {Synth, Cloak, ParseError} ==> name == "-"
  {
    if t.cacheHit then "-"
    else match t.returnCode
      case Synth => "-"
      case Cloak => "-"
      case ParseError => "-"
      case _ => t.serverName
  }

  /** The request duration in nanoseconds; zero unless both timestamps are set. */
  function RequestDuration(t: Transaction): (d: int)
    ensures t.requestStart.ZeroTime? || t.requestEnd.ZeroTime? ==> d == 0
    ensures d != 0 ==> t.requestStart.At? && t.requestEnd.At?
    ensures t.requestStart.At? && t.requestEnd.At? ==>
              t.requestStart.nanos + d == t.requestEnd.nanos
  {
    match (t.requestStart, t.requestEnd)
    case (At(s), At(e)) => e - s
    case _ => 0
  }

  /**
   * The duration is elapsed time: it does not depend on where the clock
   * stands, only on the distance between the two readings, and it is never
   * negative when the end is not before the start.
   */
  lemma RequestDurationIsElapsedTime(t: Transaction, shift: int)
    requires t.requestStart.At? && t.requestEnd.At?
    ensures var moved := t.(requestStart := At(t.requestStart.nanos + shift),
                            requestEnd := At(t.requestEnd.nanos + shift));
            RequestDuration(moved) == RequestDuration(t)
    ensures t.requestStart.nanos <= t.requestEnd.nanos ==> RequestDuration(t) >= 0
  {
  }

  /** The filters that run before any logging or controller work. */
  function Admit(p: Plugin, t: Transaction): (a: Admission)
    ensures a.Skipped? <==>
              !LoggedProtocol(t.clientProto)
              || exists i :: 0 <= i < |p.ignoredQtypes| && EqualFold(p.ignoredQtypes[i], QtypeString(t))
    ensures a.Admitted? ==>
              a.qtype == QtypeString(t)
              && a.serverName == LoggedServerName(t)
              && a.requestDuration == RequestDuration(t)
  {
    if !LoggedProtocol(t.clientProto) then Skipped
    else if Ignored(p.ignoredQtypes, QtypeString(t)) then Skipped
    else Admitted(QtypeString(t), LoggedServerName(t), RequestDuration(t))
  }

  /** The tail shared by every logged line: an error when the writer is missing. */
  function WriteLine(p: Plugin): (s: Status)
    ensures s.Nil? <==> p.loggerReady
    ensures !s.Nil? ==> s == Err(LogFileError)
  {
    if p.loggerReady then Nil else Err(LogFileError)
  }

  /** The exit status of `dlog.Fatalf` for a format other than `tsv` and `ltsv`. */
  function UnexpectedFormat(p: Plugin): Status {
    FatalExit("Unexpected log format: [" + p.format + "]")
  }

  /** An unknown qtype reads as the empty string, so an empty ignore entry drops it. */
  lemma UnknownQtypeMatchesEmptyEntry(p: Plugin, t: Transaction)
    requires LoggedProtocol(t.clientProto)
    requires t.qtypeName.None?
    requires "" in p.ignoredQtypes
    ensures Admit(p, t).Skipped?
  {
  }

  /** Case-insensitive equality is symmetric and transitive. */
  lemma EqualFoldIsEquivalence(a: string, b: string, c: string)
    ensures EqualFold(a, a)
    ensures EqualFold(a, b) ==> EqualFold(b, a)
    ensures EqualFold(a, b) && EqualFold(b, c) ==> EqualFold(a, c)
  {
  }
}

=== FILE: sample_window.dfy ===
/**
 * The parallel sample slices of the newer controller
 * (cake-support/dnscrypt-proxy/plugin_query_log.go): `cakeDataJSON`,
 * `rttArr`, `bwUpArr` and `bwDownArr`, bounded by `cakeDataLimit` with
 * oldest-first eviction, and the statistics the tick reads from them.
 */
module SampleWindow {

  /** `cakeDataLimit`: at most ten million samples are kept. */
  const Limit: nat := 10000000

  /** One stored sample: the RTT in ns and the rates in kbit/s. */
  datatype CakeData = CakeData(rtt: int, up: real, down: real)

  /** The four parallel slices. */
  datatype Window = Window(data: seq<CakeData>, rtt: seq<real>, up: seq<real>, down: seq<real>)

  /** The slices stay the same length, so every index into one is valid in all. */
  predicate Parallel(w: Window) {
    |w.rtt| == |w.data| && |w.up| == |w.data| && |w.down| == |w.data|
  }

  /** The window invariant: parallel slices within the limit. */
  predicate Valid(w: Window) {
    Parallel(w) && |w.data| <= Limit
  }

  const Empty: Window := Window([], [], [], [])

  /** When the window is at (or over) the limit, drop the oldest entry of every slice. */
  function Evict(w: Window): (e: Window)
    requires Parallel(w)
    ensures Parallel(e)
    ensures |w.data| < Limit ==> e == w
    ensures |w.data| >= Limit ==>
              |e.data| == |w.data| - 1
              && w.data == [w.data[0]] + e.data
              && w.rtt == [w.rtt[0]] + e.rtt
              && w.up == [w.up[0]] + e.up
              && w.down == [w.down[0]] + e.down
  {
    if |w.data| >= Limit then
      Window(w.data[1..], w.rtt[1..], w.up[1..], w.down[1..])
    else w
  }

  /** Append one sample to every slice. */
  function Push(w: Window, s: CakeData): (a: Window)
    requires Parallel(w)
    ensures Parallel(a)
    ensures |a.data| == |w.data| + 1
    ensures a.data[..|w.data|] == w.data && a.data[|w.data|] == s
    ensures a.rtt[..|w.rtt|] == w.rtt && a.rtt[|w.rtt|] == s.rtt as real
    ensures a.up[..|w.up|] == w.up && a.up[|w.up|] == s.up
    ensures a.down[..|w.down|] == w.down && a.down[|w.down|] == s.down
  {
    Window(w.data + [s], w.rtt + [s.rtt as real], w.up + [s.up], w.down + [s.down])
  }

  /** Eviction followed by the append of one sample, as one tick does it. */
  function Record(w: Window, s: CakeData): Window
    requires Parallel(w)
  {
    Push(Evict(w), s)
  }

  /** Recording keeps the window valid, never empty, and puts the new sample last. */
  lemma RecordKeepsWindowValid(w: Window, s: CakeData)
    requires Valid(w)
    ensures Valid(Record(w, s))
    ensures var r := Record(w, s);
            |r.data| > 0 && r.data[|r.data| - 1] == s && r.up[|r.up| - 1] == s.up
            && r.down[|r.down| - 1] == s.down && r.rtt[|r.rtt| - 1] == s.rtt as real
  {
  }

  /** A full window stays full: exactly the oldest sample is replaced by the new one. */
  lemma RecordOnFullWindow(w: Window, s: CakeData)
    requires Valid(w) && |w.data| == Limit
    ensures var r := Record(w, s);
            |r.data| == Limit
            && r.data == w.data[1..] + [s]
            && r.up == w.up[1..] + [s.up]
            && r.down == w.down[1..] + [s.down]
            && r.rtt == w.rtt[1..] + [s.rtt as real]
  {
  }

  /** A window below the limit only grows. */
  lemma RecordBelowLimit(w: Window, s: CakeData)
    requires Parallel(w) && |w.data| < Limit
    ensures var r := Record(w, s);
            r.data == w.data + [s] && r.up == w.up + [s.up]
            && r.down == w.down + [s.down] && r.rtt == w.rtt + [s.rtt as real]
  {
  }

  // ---------------------------------------------------------------------------
  // Statistics
  // ---------------------------------------------------------------------------

  /** The sum of a slice, accumulated front to back. */
  function Sum(s: seq<real>): real
    decreases |s|
  {
    if |s| == 0 then 0.0 else Sum(s[..|s| - 1]) + s[|s| - 1]
  }

  /** The arithmetic mean of a non-empty slice. */
  function Mean(s: seq<real>): (m: real)
    requires |s| > 0
    ensures m * (|s| as real) == Sum(s)
  {
    Sum(s) / (|s| as real)
  }

  /** The mean lies between the smallest and the largest sample. */
  lemma {:induction false} SumBounds(s: seq<real>, lo: real, hi: real)
    requires forall i :: 0 <= i < |s| ==> lo <= s[i] <= hi
    ensures (|s| as real) * lo <= Sum(s) <= (|s| as real) * hi
    decreases |s|
  {
    if |s| > 0 {
      var init := s[..|s| - 1];
      assert forall i :: 0 <= i < |init| ==> init[i] == s[i];
      SumBounds(init, lo, hi);
    }
  }

  lemma MeanBounds(s: seq<real>, lo: real, hi: real)
    requires |s| > 0
    requires forall i :: 0 <= i < |s| ==> lo <= s[i] <= hi
    ensures lo <= Mean(s) <= hi
  {
    SumBounds(s, lo, hi);
  }

  /**
   * The accumulation loop of the tick: one pass over the three slices summing
   * each, then a division by the length.
   */
  method Averages(w: Window) returns (rttAvg: real, upAvg: real, downAvg: real)
    requires Parallel(w) && |w.data| > 0
    ensures rttAvg == Mean(w.rtt) && upAvg == Mean(w.up) && downAvg == Mean(w.down)
  {
    var rttTotal, upTotal, downTotal := 0.0, 0.0, 0.0;
    var i := 0;
    while i < |w.rtt|
      invariant 0 <= i <= |w.rtt|
      invariant rttTotal == Sum(w.rtt[..i])
      invariant upTotal == Sum(w.up[..i])
      invariant downTotal == Sum(w.down[..i])
    {
      assert w.rtt[..i + 1][..i] == w.rtt[..i];
      assert w.up[..i + 1][..i] == w.up[..i];
      assert w.down[..i + 1][..i] == w.down[..i];
      rttTotal := rttTotal + w.rtt[i];
      upTotal := upTotal + w.up[i];
      downTotal := downTotal + w.down[i];
      i := i + 1;
    }
    assert w.rtt[..i] == w.rtt && w.up[..i] == w.up && w.down[..i] == w.down;
    rttAvg := rttTotal / (|w.rtt| as real);
    upAvg := upTotal / (|w.up| as real);
    downAvg := downTotal / (|w.down| as real);
  }

  /**
   * The tick's "median": it looks only at the last sample `x` and the
   * parity of the slice length — `(x+1)/2` for an odd length,
   * `x/2 + (x/2+1)/2` for an even one.
   */
  function LastSampleMedian(s: seq<real>): (m: real)
    requires |s| > 0
    ensures |s| % 2 == 1 ==> 2.0 * m == s[|s| - 1] + 1.0
    ensures |s| % 2 == 0 ==> 4.0 * m == 3.0 * s[|s| - 1] + 2.0
  {
    var x := s[|s| - 1];
    if |s| % 2 == 0 then x / 2.0 + (x / 2.0 + 1.0) / 2.0 else (x + 1.0) / 2.0
  }

  /** Two slices with the same last sample and the same length parity get the same value. */
  lemma LastSampleMedianIgnoresHistory(s: seq<real>, t: seq<real>)
    requires |s| > 0 && |t| > 0
    requires s[|s| - 1] == t[|t| - 1] && |s| % 2 == |t| % 2
    ensures LastSampleMedian(s) == LastSampleMedian(t)
  {
  }

  /** A last sample `x` in (0, c], with `c` at least 2, gives a value in (0, c], so the rate never leaves that range. */
  lemma LastSampleMedianWithin(s: seq<real>, c: real)
    requires |s| > 0 && 0.0 < s[|s| - 1] <= c && c >= 2.0
    ensures 0.0 < LastSampleMedian(s) <= c
  {
  }

  /** On {2, 4, 6, 8} the value is 6.5, where the order-statistic median is 5. */
  lemma LastSampleMedianOfEvenExample()
    ensures LastSampleMedian([2.0, 4.0, 6.0, 8.0]) == 6.5
  {
  }

  /** On {2, 4, 6} the value is 3.5, where the order-statistic median is 4. */
  lemma LastSampleMedianOfOddExample()
    ensures LastSampleMedian([2.0, 4.0, 6.0]) == 3.5
  {
  }
}

=== FILE: shaper.dfy ===
/**
 * The external shaper port: every `tc qdisc replace ... cake ...` invocation
 * is an abstract event that either succeeds or fails. What the command does
 * to the kernel is outside the model.
 */
module Shaper {

  /** Outcome of one `tc` invocation (`Output()` returning a nil or non-nil error). */
  datatype ApplyResult = Applied | Failed

  /** Interface names both variants configure. */
  const UplinkInterface: string := "enp3s0"
  const DownlinkInterface: string := "ifb4enp3s0"
}

=== FILE: wrappers.dfy ===
/** The Option datatype shared by the model. */
module Wrappers {

  /** A value that may be absent, such as the result of a map lookup. */
  datatype Option<+T> = None | Some(value: T) {

    /** The wrapped value, or `default` when absent. */
    function GetOr(default: T): T {
      match this
      case Some(v) => v
      case None => default
    }
  }
}
